=== FILE: README.md ===
# Link-token codec of osu-wiki-time, modelled in Dafny

osu-wiki-time is a small web page that shows one moment in several time
zones. The page keeps its whole state in the URL, as one URL-safe token.
A state is a moment plus a list of entries, and each entry is a
two-letter region flag and an IANA time-zone name. This project models the
code in `script.js` that writes and reads that token, and proves
properties of the model.

The token is laid out as follows:

- position 0 holds the version digit `A`, which is the base64url digit for 0;
- positions 1 to 7 hold seven base64url digits;
  - they encode the low five bytes of a little-endian 64-bit two's-complement integer;
  - that integer is the moment's epoch seconds, rounded down and clamped to the signed 40-bit range;
- the rest holds the entries, joined by `~`;
  - each entry is its flag followed by its time zone, with every `/` written as `.`.

Reading pads the seven digits with `AAAA`. It decodes them to eight bytes and reads a little-endian
unsigned 64-bit word. It keeps the low 40 bits as a signed number of seconds. The rest is split on `~`.

A few points are fixed by the code:

- The timestamp takes exactly seven characters.
- A state with no entries is written as an eight-character token with no `~` (`AAAAAAAA` for the
  epoch's first second).
- Reading checks only the version digit and the timestamp digits. It never validates the entries.

Files and modules:

- `results.dfy` (`Results`) — the `Option` and `Result` wrappers. `Option.None` stands for the codec's
  `undefined`. `Result.Failure` stands for a thrown error.
- `bytes.dfy` (`Bytes`) — bytes as the integers 0..255. It also defines powers of two, little-endian
  reading and writing of integers (`DataView.getBigUint64` / `setBigInt64`) and `BigInt.asIntN`.
- `base64url.dfy` (`Base64Url`) — the alphabet and its reverse table, `encodeBase64Url` and
  `decodeBase64Url`. Each is modelled twice: as a recursive function, and as a method with the
  source's loops that is proved equal to that function.
- `text.dfy` (`Text`) — the JavaScript string operations the codec uses: `slice`, global `replace` of
  one character, `split` and `join` on one character.
- `statecodec.dfy` (`StateCodec`) — `clampBigIntToBits`, `encodeState` and `decodeState`.

Modelling conventions:

- A JavaScript string is a `JsString`, a sequence of UTF-16 code units (`CodeUnit`, the integers
  0..0xFFFF). So `|s|` is JavaScript's `s.length`, and `slice` bounds count code units: a character
  outside the Basic Multilingual Plane is two units, and a lone surrogate is one. Below, a "character"
  of a token or entry means one code unit.
- Bit shifts and masks are written as division, remainder and multiplication by powers of two, on
  unbounded integers.
- A moment is a whole number of milliseconds since the epoch.

## Model

| member | source | states |
|---|---|---|
| Base64Url.Digit | script.js:1-6 | the alphabet lookup gives a character of `A-Z a-z 0-9 - _`, and the reverse table maps it back to the same index |
| Base64Url.DigitOfValue | script.js:1-6 | the reverse table sends each alphabet character to the index at which the alphabet holds it |
| Base64Url.DigitInjective | script.js:1-6 | no character occurs twice in the alphabet, so the reverse table is well defined |
| Base64Url.Encode | script.js:53-80 | the output has 4 characters per whole 3-byte group, plus 2 or 3 for a 1- or 2-byte tail, and only alphabet characters; its length is never 1 mod 4 |
| Base64Url.Decode | script.js:12-47 | the result is undefined exactly when the length is 1 mod 4 or some character is outside the alphabet; otherwise it holds floor(3n/4) bytes |
| Base64Url.DecodeGroups | script.js:23-44 | for a string of alphabet characters whose length is not 1 mod 4, each whole quartet gives three bytes and a 2- or 3-character tail gives one or two, so n characters give floor(3n/4) bytes |
| Base64Url.RoundTrip | script.js:12-80 | decoding the encoding of any byte string gives back that byte string |
| Base64Url.EncodeDecode | script.js:34-44 | re-encoding a decoded string gives back the string exactly when the unused low bits of its tail character are zero |
| Base64Url.DecodeIgnoresTailBits | script.js:34-38 | decoding is not injective: `AA` and `AB` both decode to the single byte 0, and 0 encodes as `AA` |
| Base64Url.EncodeZeroPadding | script.js:71-76 | for a byte string of length 2 mod 3, such as the five timestamp bytes, appending three zero bytes appends `AAAA` to its encoding |
| Base64Url.DecodeLoop | script.js:12-47 | the loop-and-switch decoder returns the same result as `Decode` on every input |
| Base64Url.EncodeLoop | script.js:53-80 | the loop-and-switch encoder returns the same string as `Encode` on every input |
| Bytes.LeUint | script.js:160 | a little-endian word of n bytes, read as unsigned, lies below 2^(8n) |
| Bytes.LeBytes | script.js:177 | writing a value into k bytes yields exactly k bytes |
| Bytes.LeBytesValue | script.js:177 | the bytes `setBigInt64(…, true)` writes hold the value modulo 2^(8k), least significant byte first |
| Bytes.LeBytesPrefix | script.js:182 | the first j of the k written bytes are the j-byte little-endian form of the same value |
| Bytes.LeUintSplit | script.js:160 | a little-endian word is its low j bytes plus 2^(8j) times its high bytes |
| Bytes.AsIntN | script.js:160 | `asIntN(bits, u)` lies in the signed bits-bit range and agrees with u modulo 2^bits |
| Bytes.SignExtendInverse | script.js:160 | `asIntN` leaves a value already in the signed range unchanged |
| Bytes.LowBytesDecide | script.js:160 | the signed value of the low 8j bits of a little-endian word depends on its low j bytes only; for the 40-bit timestamp, on the low five bytes |
| Bytes.Pow2Timestamp | script.js:118-120 | 2^39 = 0x80_0000_0000 and 2^40 = 0x100_0000_0000 |
| StateCodec.TimestampRange | script.js:118-120 | a number of seconds lies in the signed 40-bit range exactly when it is between −549755813888 and 549755813887 |
| Bytes.SignedLowBits | script.js:160 | adding a multiple of 2^bits to a value leaves `asIntN(bits, ·)` unchanged |
| Bytes.LeUintZero | script.js:160 | only the all-zero byte string reads as zero |
| Text.Slice | script.js:153 | `slice(from, to)` has length min(to, n) − from (or 0) and holds the code units from `from` on |
| Text.ReplaceAll | script.js:188 | global replacement keeps the length and changes exactly the occurrences of the replaced character |
| Text.ReplaceAllInverse | script.js:164 | replacing back undoes a replacement when the target character did not occur before |
| Text.Split | script.js:162 | `split` yields at least one piece, and no piece contains the separator |
| Text.Join | script.js:189 | a join is empty for no pieces, starts with the first piece, and has the separator right after it when there are at least two |
| Text.JoinSplit | script.js:162 | joining the pieces of a split gives back the string |
| Text.SplitJoin | script.js:189 | splitting a join of separator-free pieces gives back the pieces |
| Text.JoinHasSeparator | script.js:189 | a join of separator-free pieces contains the separator exactly when there are at least two pieces |
| StateCodec.Clamp | script.js:117-131 | the clamped value lies in the signed range and no value of that range is nearer to the input |
| StateCodec.EpochSeconds | script.js:177 | whole seconds rounded down: s·1000 ≤ ms < s·1000 + 1000 |
| StateCodec.TimestampField | script.js:175-182 | the five written bytes, read as a signed 40-bit integer, are the clamped seconds |
| StateCodec.IsTimeZoneChar | script.js:178 | a character the zone pattern admits is neither `.` nor `~` |
| StateCodec.ValidTimeZone | script.js:178 | a zone matching `/^[A-Za-z0-9/+_-]+$/` is non-empty and holds no `.` and no `~` |
| StateCodec.ValidEntry | script.js:184 | an entry that passes the check has a flag of 2 code units and a non-empty zone without `.` |
| StateCodec.EncodeEntry | script.js:188 | an entry is written as its flag followed by its zone, with the same total length and no `/` left after the flag |
| StateCodec.EncodeEntries | script.js:183-189 | one piece per entry, each starting with that entry's flag and as long as flag and zone together |
| StateCodec.DecodeEntry | script.js:162-165 | the flag is the first two code units of the piece (all of it when shorter), and the zone is the rest of the piece with each `.` turned into `/` and every other unit kept |
| StateCodec.DecodeEntries | script.js:161-166 | an empty rest gives no entries; otherwise entry i is the i-th `~`-separated piece read by `DecodeEntry`, so there is one entry per piece, in order |
| StateCodec.EntryRoundTrip | script.js:162-164 | a valid entry's encoding reads back as the same entry, is at least 3 characters long, and has no `~` when the flag has none |
| StateCodec.EntriesRoundTrip | script.js:161-166 | the entries part reads back as the list of entries written, the empty list included, when the entries are valid and their flags hold no `~` |
| StateCodec.EncodeState | script.js:174-191 | encoding fails exactly when some entry has a flag that is not 2 code units long or a zone outside `[A-Za-z0-9/+_-]+`; on success the token starts with `A` then 7 alphabet digits, and with no entries it is exactly 8 characters |
| StateCodec.DecodeState | script.js:148-168 | decoding fails with the version error when the first character is not `A`; it succeeds exactly when the token has at least 8 characters, starts with `A` and has 7 alphabet digits after it; the result is a whole second within ±2^39 s of the epoch, and its entries are those read from the characters after the eighth |
| StateCodec.DecodeStateGate | script.js:153-160 | the padded timestamp field yields at least 8 bytes exactly when the token is long enough and its digits are valid |
| StateCodec.ShortToken | script.js:153-160 | a token shorter than 8 characters fails: with an invalid-timestamp error when a digit is bad or its length is 2 or 6, otherwise because too few bytes are left to read |
| StateCodec.TimestampRoundTrip | script.js:153-182 | the 7 written digits, padded with `AAAA`, decode to the 5 written bytes plus three zero bytes, and these give back the clamped seconds |
| StateCodec.TokenDecodes | script.js:148-168 | a token made of `A`, the timestamp digits of some seconds and any rest decodes to the clamped seconds and the entries read from the rest |
| StateCodec.StateRoundTrip | script.js:148-191 | decoding an encoded state gives back its entries, and its moment rounded down to the second and clamped to 40-bit seconds |
| StateCodec.ExactRoundTrip | script.js:148-191 | a whole-second moment within the 40-bit range, with valid entries whose flags hold no `~`, is read back exactly |
| StateCodec.EmptyToken | script.js:180-189 | a moment in the first second of the epoch with no entries is the token of eight zero digits `AAAAAAAA`, which reads back as the epoch with no entries |
| StateCodec.SurrogateFlags | script.js:184 | a flag that is one surrogate pair is accepted and read back, while a flag of two surrogate pairs is rejected |
| StateCodec.SeparatorInFlag | script.js:161-189 | a flag holding `~` is written without complaint but read back as two entries |
| StateCodec.ClampIdentity | script.js:117-131 | clamping leaves exactly the in-range values unchanged, so it is idempotent |
| StateCodec.ClampMonotone | script.js:117-131 | clamping preserves order |

## Left out

- The page code after `encodeState` is not part of this model: building DOM elements, time formatting
  with `Intl`/dayjs, the `DOMContentLoaded` handler and reading `document.location`. These are I/O and
  rendering.
- `uint8ToString` and `stringToUint8` are not used by the token codec, so they are not modelled.
- `Date` is modelled as an integer number of milliseconds. An invalid `Date` (NaN time) is out of scope:
  `BigInt(NaN)` would throw. Floating-point rounding of `getTime() / 1000` is out of scope too. For
  integer milliseconds, `Math.floor` of the quotient equals integer floor division. For huge
  magnitudes the two could differ in the last unit, but such values are clamped either way.
- `Number(...)` and `new Date(...)` on decoding are the identity here. The decoded value is at most
  2^39·1000 ms in magnitude, which a double holds exactly and a `Date` accepts.
- `decodeState(undefined)` throws a `TypeError` when indexing. The model's input is always a string.
- JavaScript iterates `for (const character of data)` by code point and the model checks code units.
  Every surrogate unit, paired or lone, is outside the alphabet, so the outcome is the same.
- StateCodec.Clamp: requires `bits >= 1`. For `bits == 0` the source raises a RangeError from
  `2n ** -1n`. The only caller passes 40.
- StateCodec.StateError: the source throws undistinguished `Error`/`RangeError` values. The four
  labels name which check failed and carry no further payload.
- StateCodec.StateRoundTrip: requires every flag to be free of `~`. Only the flag's length is checked
  when writing, so a flag holding `~` is split apart when reading (`StateCodec.SeparatorInFlag`).
- StateCodec.EntriesRoundTrip: requires valid entries whose flags hold no `~`, for the same reason.
- StateCodec.ExactRoundTrip: requires valid entries whose flags hold no `~`, for the same reason.

=== FILE: base64url.dfy ===
/** The unpadded base64url byte codec (`decodeBase64Url`,
    `encodeBase64Url`). Three bytes become four characters of six bits
    each; a one-byte tail becomes two characters and a two-byte tail
    three. No padding character is written or accepted. */
module Base64Url {
  import opened Results
  import opened Bytes
  import opened Text

  /** A six-bit value: an index into the 64-character alphabet. */
  type Sextet = x: int | 0 <= x < 64

  /** Membership in the alphabet `A-Z a-z 0-9 - _`: the characters that
      have an entry in the reverse lookup table. */
  predicate IsDigit(c: CodeUnit) {
    InRange(c, 'A', 'Z') || InRange(c, 'a', 'z') || InRange(c, '0', '9')
    || c == '-' as CodeUnit || c == '_' as CodeUnit
  }

  predicate AllDigits(s: JsString) {
    forall i :: 0 <= i < |s| ==> IsDigit(s[i])
  }

  /** The `i`-th alphabet character: upper-case letters, then lower-case
      letters, then decimal digits, then `-` and `_`. */
  function Digit(i: Sextet): (c: CodeUnit)
    ensures IsDigit(c)
    ensures Value(c) == i
  {
    if i < 26 then 'A' as int + i
    else if i < 52 then 'a' as int + (i - 26)
    else if i < 62 then '0' as int + (i - 52)
    else if i == 62 then '-' as CodeUnit
    else '_' as CodeUnit
  }

  /** The reverse lookup table: the position of `c` in the alphabet. */
  function Value(c: CodeUnit): Sextet
    requires IsDigit(c)
  {
    if InRange(c, 'A', 'Z') then c - 'A' as int
    else if InRange(c, 'a', 'z') then c - 'a' as int + 26
    else if InRange(c, '0', '9') then c - '0' as int + 52
    else if c == '-' as CodeUnit then 62
    else 63
  }

  /** The lookup table and the alphabet are inverse to each other, so the
      alphabet has no repeated character. */
  lemma DigitOfValue(c: CodeUnit)
    requires IsDigit(c)
    ensures Digit(Value(c)) == c
  {
  }

  /** The digit for 0. */
  const ZeroDigit: CodeUnit := 'A' as CodeUnit

  /** Four zero digits: the encoding of three zero bytes. */
  const ZeroGroup: JsString := [ZeroDigit, ZeroDigit, ZeroDigit, ZeroDigit]

  lemma DigitInjective(i: Sextet, j: Sextet)
    requires Digit(i) == Digit(j)
    ensures i == j
  {
    assert Value(Digit(i)) == i && Value(Digit(j)) == j;
  }

  // Packing three bytes x, y, z into four sextets and back, as the
  // shifts and masks of both directions do it.

  function Sextet0(x: Byte): Sextet { x / 4 }
  function Sextet1(x: Byte, y: Byte): Sextet { (x % 4) * 16 + y / 16 }
  function Sextet2(y: Byte, z: Byte): Sextet { (y % 16) * 4 + z / 64 }
  function Sextet3(z: Byte): Sextet { z % 64 }

  function Byte0(v0: Sextet, v1: Sextet): Byte { v0 * 4 + v1 / 16 }
  function Byte1(v1: Sextet, v2: Sextet): Byte { (v1 % 16) * 16 + v2 / 4 }
  function Byte2(v2: Sextet, v3: Sextet): Byte { (v2 % 4) * 64 + v3 }

  /** Unpacking inverts packing, for whole groups and for both tails
      (whose missing bytes are written as zero bits). */
  lemma UnpackPack(x: Byte, y: Byte, z: Byte)
    ensures Byte0(Sextet0(x), Sextet1(x, y)) == x
    ensures Byte1(Sextet1(x, y), Sextet2(y, z)) == y
    ensures Byte2(Sextet2(y, z), Sextet3(z)) == z
  {
  }

  /** `encodeBase64Url`. */
  function Encode(b: seq<Byte>): (r: JsString)
    ensures |r| == 4 * (|b| / 3) + (if |b| % 3 == 0 then 0 else |b| % 3 + 1)
    ensures AllDigits(r)
    ensures |r| % 4 != 1
  {
    LengthClass(|b|);
    if |b| >= 3 then
      var head := [Digit(Sextet0(b[0])), Digit(Sextet1(b[0], b[1])), Digit(Sextet2(b[1], b[2])), Digit(Sextet3(b[2]))];
      var rest := Encode(b[3..]);
      GroupLength(|b|);
      AllDigitsConcat(head, rest);
      head + rest
    else if |b| == 2 then
      [Digit(Sextet0(b[0])), Digit(Sextet1(b[0], b[1])), Digit(Sextet2(b[1], 0))]
    else if |b| == 1 then
      [Digit(Sextet0(b[0])), Digit(Sextet1(b[0], 0))]
    else
      []
  }

  // Arithmetic and sequence steps of `Encode`'s contract, kept out of
  // its body so that each is proved on its own.
  lemma GroupLength(n: int)
    requires n >= 3
    ensures (n - 3) / 3 == n / 3 - 1 && (n - 3) % 3 == n % 3
  {
  }

  lemma LengthClass(n: nat)
    ensures (4 * (n / 3) + (if n % 3 == 0 then 0 else n % 3 + 1)) % 4 != 1
  {
  }

  lemma AllDigitsConcat(a: JsString, b: JsString)
    requires AllDigits(a) && AllDigits(b)
    ensures AllDigits(a + b)
  {
  }

  /** The bytes of a validated input: each four characters give three
      bytes, a two-character tail one byte and a three-character tail two.
      Bits of a tail character below the last whole byte are dropped. */
  function DecodeGroups(s: JsString): (r: seq<Byte>)
    requires AllDigits(s)
    requires |s| % 4 != 1
    ensures |r| == |s| * 3 / 4
  {
    if |s| >= 4 then
      var v0, v1, v2, v3 := Value(s[0]), Value(s[1]), Value(s[2]), Value(s[3]);
      [Byte0(v0, v1), Byte1(v1, v2), Byte2(v2, v3)] + DecodeGroups(s[4..])
    else if |s| == 3 then
      var v0, v1, v2 := Value(s[0]), Value(s[1]), Value(s[2]);
      [Byte0(v0, v1), Byte1(v1, v2)]
    else if |s| == 2 then
      [Byte0(Value(s[0]), Value(s[1]))]
    else
      []
  }

  /** `decodeBase64Url`: `None` stands for its `undefined`. */
  function Decode(s: JsString): (r: Option<seq<Byte>>)
    ensures |s| % 4 == 1 ==> r.None?
    ensures (exists i :: 0 <= i < |s| && !IsDigit(s[i])) ==> r.None?
    ensures r.Some? <==> |s| % 4 != 1 && AllDigits(s)
    ensures r.Some? ==> |r.value| == |s| * 3 / 4
  {
    if |s| % 4 == 1 then None
    else if !AllDigits(s) then None
    else Some(DecodeGroups(s))
  }

  /** Removing a whole group of four characters keeps the length class. */
  lemma LengthClassAfterGroup(s: JsString)
    requires |s| >= 4
    ensures |s[4..]| % 4 == |s| % 4
  {
  }

  // One pass of the group loop in `DecodeLoop`, stated on the remaining input.
  lemma DecodeGroupsStep(s: JsString)
    requires AllDigits(s) && |s| % 4 != 1 && |s| >= 4
    ensures AllDigits(s[4..]) && |s[4..]| % 4 != 1
    ensures DecodeGroups(s)
         == [Byte0(Value(s[0]), Value(s[1])),
             Byte1(Value(s[1]), Value(s[2])),
             Byte2(Value(s[2]), Value(s[3]))] + DecodeGroups(s[4..])
  {
    LengthClassAfterGroup(s);
  }

  // The `switch` after the group loop in `DecodeLoop`.
  lemma DecodeTail(s: JsString)
    requires AllDigits(s) && |s| % 4 != 1 && |s| < 4
    ensures |s| == 2 ==> DecodeGroups(s) == [Byte0(Value(s[0]), Value(s[1]))]
    ensures |s| == 3 ==> DecodeGroups(s) == [Byte0(Value(s[0]), Value(s[1])), Byte1(Value(s[1]), Value(s[2]))]
    ensures |s| != 2 && |s| != 3 ==> DecodeGroups(s) == []
  {
  }

  /** Decoding an encoding gives back the bytes, for every length. */
  lemma {:induction false} DecodeGroupsEncode(b: seq<Byte>)
    ensures DecodeGroups(Encode(b)) == b
  {
    if |b| >= 3 {
      assert b == [b[0], b[1], b[2]] + b[3..];
      DecodeGroupsEncode(b[3..]);
      DecodeGroupsEncodeStep(b[0], b[1], b[2], b[3..]);
    } else if |b| == 2 {
      assert b == [b[0], b[1]];
      DecodeTwoByteTail(b[0], b[1]);
    } else if |b| == 1 {
      assert b == [b[0]];
      DecodeOneByteTail(b[0]);
    }
  }

  // The inductive step of `DecodeGroupsEncode` for one whole group.
  lemma DecodeGroupsEncodeStep(x: Byte, y: Byte, z: Byte, tail: seq<Byte>)
    requires DecodeGroups(Encode(tail)) == tail
    ensures DecodeGroups(Encode([x, y, z] + tail)) == [x, y, z] + tail
  {
    var c0, c1, c2, c3 := Digit(Sextet0(x)), Digit(Sextet1(x, y)), Digit(Sextet2(y, z)), Digit(Sextet3(z));
    EncodeGroup(x, y, z, tail);
    UnpackPack(x, y, z);
    DecodeGroupsCons([c0, c1, c2, c3], Encode(tail));
  }

  lemma DecodeTwoByteTail(x: Byte, y: Byte)
    ensures DecodeGroups(Encode([x, y])) == [x, y]
  {
    var e := [Digit(Sextet0(x)), Digit(Sextet1(x, y)), Digit(Sextet2(y, 0))];
    assert Encode([x, y]) == e;
    UnpackPack(x, y, 0);
    assert Value(e[0]) == Sextet0(x) && Value(e[1]) == Sextet1(x, y) && Value(e[2]) == Sextet2(y, 0);
  }

  lemma DecodeOneByteTail(x: Byte)
    ensures DecodeGroups(Encode([x])) == [x]
  {
    var c0, c1 := Digit(Sextet0(x)), Digit(Sextet1(x, 0));
    EncodeSingle(x);
    UnpackPack(x, 0, 0);
    DecodeTwoChars(c0, c1);
  }

  // One step of `DecodeGroups` on a two-digit tail.
  lemma DecodeTwoChars(c0: CodeUnit, c1: CodeUnit)
    requires IsDigit(c0) && IsDigit(c1)
    ensures AllDigits([c0, c1])
    ensures DecodeGroups([c0, c1]) == [Byte0(Value(c0), Value(c1))]
  {
  }

  // One step of `Encode` on a single byte.
  lemma EncodeSingle(x: Byte)
    ensures Encode([x]) == [Digit(Sextet0(x)), Digit(Sextet1(x, 0))]
  {
  }

  /** A leading group of four characters decodes on its own. */
  lemma DecodeGroupsCons(group: JsString, rest: JsString)
    requires |group| == 4
    requires AllDigits(group) && AllDigits(rest)
    requires |rest| % 4 != 1
    ensures AllDigits(group + rest)
    ensures DecodeGroups(group + rest)
         == [Byte0(Value(group[0]), Value(group[1])),
             Byte1(Value(group[1]), Value(group[2])),
             Byte2(Value(group[2]), Value(group[3]))] + DecodeGroups(rest)
  {
    var s := group + rest;
    assert s[4..] == rest;
    assert forall i :: 0 <= i < 4 ==> s[i] == group[i];
  }

  /** When the last group holds two bytes, appending three zero bytes
      appends exactly four zero characters: the last character of the
      tail already has its two low bits clear. */
  lemma {:induction false} EncodeZeroPadding(b: seq<Byte>)
    requires |b| % 3 == 2
    ensures Encode(b + [0, 0, 0]) == Encode(b) + ZeroGroup
    decreases |b|
  {
    if |b| >= 3 {
      var x, y, z, rest := b[0], b[1], b[2], b[3..];
      assert b == [x, y, z] + rest;
      assert b + [0, 0, 0] == [x, y, z] + (rest + [0, 0, 0]);
      EncodeZeroPadding(rest);
      EncodeGroup(x, y, z, rest);
      EncodeGroup(x, y, z, rest + [0, 0, 0]);
    } else {
      assert b == [b[0], b[1]];
      assert b + [0, 0, 0] == [b[0], b[1], 0, 0, 0];
      EncodePaddedPair(b[0], b[1]);
    }
  }

  lemma EncodePaddedPair(x: Byte, y: Byte)
    ensures Encode([x, y, 0, 0, 0]) == Encode([x, y]) + ZeroGroup
  {
    EncodeFive(x, y, 0, 0, 0);
    EncodePair(x, y);
  }

  /** The seven digits `Encode` writes for five bytes. */
  lemma EncodeFive(x: Byte, y: Byte, z: Byte, u: Byte, v: Byte)
    ensures Encode([x, y, z, u, v])
         == [Digit(Sextet0(x)), Digit(Sextet1(x, y)), Digit(Sextet2(y, z)), Digit(Sextet3(z)),
             Digit(Sextet0(u)), Digit(Sextet1(u, v)), Digit(Sextet2(v, 0))]
  {
    EncodeGroup(x, y, z, [u, v]);
    assert [x, y, z] + [u, v] == [x, y, z, u, v];
    EncodePair(u, v);
  }

  /** A whole group writes four digits ahead of the rest. */
  lemma EncodeGroup(x: Byte, y: Byte, z: Byte, rest: seq<Byte>)
    ensures Encode([x, y, z] + rest)
         == [Digit(Sextet0(x)), Digit(Sextet1(x, y)), Digit(Sextet2(y, z)), Digit(Sextet3(z))] + Encode(rest)
  {
    assert ([x, y, z] + rest)[3..] == rest;
  }

  /** A two-byte tail writes three digits. */
  lemma EncodePair(x: Byte, y: Byte)
    ensures Encode([x, y]) == [Digit(Sextet0(x)), Digit(Sextet1(x, y)), Digit(Sextet2(y, 0))]
  {
  }

  lemma RoundTrip(b: seq<Byte>)
    ensures Decode(Encode(b)) == Some(b)
  {
    DecodeGroupsEncode(b);
  }

  /** Packing inverts unpacking for the sextets that carry whole bytes. */
  lemma PackUnpack(v0: Sextet, v1: Sextet, v2: Sextet, v3: Sextet)
    ensures Sextet0(Byte0(v0, v1)) == v0
    ensures Sextet1(Byte0(v0, v1), Byte1(v1, v2)) == v1
    ensures Sextet2(Byte1(v1, v2), Byte2(v2, v3)) == v2
    ensures Sextet3(Byte2(v2, v3)) == v3
    ensures Sextet1(Byte0(v0, v1), 0) == v1 <==> v1 % 16 == 0
    ensures Sextet2(Byte1(v1, v2), 0) == v2 <==> v2 % 4 == 0
  {
  }

  /** A valid input whose last character carries no bits beyond the last
      whole byte: the only kind of input the encoder produces. */
  predicate CanonicalTail(s: JsString)
    requires AllDigits(s)
  {
    && (|s| % 4 == 2 ==> Value(s[|s| - 1]) % 16 == 0)
    && (|s| % 4 == 3 ==> Value(s[|s| - 1]) % 4 == 0)
  }

  /** Re-encoding a decoded input restores it exactly when its tail is
      canonical; otherwise the unused low bits of the last character are
      lost, so decoding is not injective. */
  lemma {:induction false} EncodeDecode(s: JsString)
    requires Decode(s).Some?
    ensures Encode(Decode(s).value) == s <==> CanonicalTail(s)
    decreases |s|
  {
    assert Decode(s) == Some(DecodeGroups(s));
    if |s| >= 4 {
      var rest := s[4..];
      EncodeDecodeGroup(s);
      EncodeDecode(rest);
      assert s == s[..4] + rest;
    } else if |s| == 3 {
      EncodeDecodeThree(s);
    } else if |s| == 2 {
      EncodeDecodeTwo(s);
    }
  }

  /** One leading group: its four characters re-encode to themselves and
      the tail class is that of the rest. */
  lemma EncodeDecodeGroup(s: JsString)
    requires Decode(s).Some?
    requires |s| >= 4
    ensures Decode(s[4..]).Some?
    ensures Encode(DecodeGroups(s)) == s[..4] + Encode(DecodeGroups(s[4..]))
    ensures CanonicalTail(s) <==> CanonicalTail(s[4..])
  {
    assert Decode(s) == Some(DecodeGroups(s));
    CanonicalAfterGroup(s);
    ReencodeGroup(s);
  }

  // The two halves of the inductive step of `EncodeDecodeGroup`.
  lemma CanonicalAfterGroup(s: JsString)
    requires AllDigits(s) && |s| % 4 != 1
    requires |s| >= 4
    ensures AllDigits(s[4..]) && |s[4..]| % 4 != 1
    ensures CanonicalTail(s) <==> CanonicalTail(s[4..])
  {
    var rest := s[4..];
    assert AllDigits(rest);
    LengthClassAfterGroup(s);
    if |rest| > 0 {
      assert s[|s| - 1] == rest[|rest| - 1];
    }
  }

  lemma ReencodeGroup(s: JsString)
    requires AllDigits(s) && |s| % 4 != 1
    requires |s| >= 4
    requires AllDigits(s[4..]) && |s[4..]| % 4 != 1
    ensures Encode(DecodeGroups(s)) == s[..4] + Encode(DecodeGroups(s[4..]))
  {
    var rest := s[4..];
    var v0, v1, v2, v3 := Value(s[0]), Value(s[1]), Value(s[2]), Value(s[3]);
    var x, y, z := Byte0(v0, v1), Byte1(v1, v2), Byte2(v2, v3);
    assert DecodeGroups(s) == [x, y, z] + DecodeGroups(rest);
    EncodeGroup(x, y, z, DecodeGroups(rest));
    PackUnpack(v0, v1, v2, v3);
    DigitOfValue(s[0]);
    DigitOfValue(s[1]);
    DigitOfValue(s[2]);
    DigitOfValue(s[3]);
    FourChars(Digit(Sextet0(x)), Digit(Sextet1(x, y)), Digit(Sextet2(y, z)), Digit(Sextet3(z)), s);
  }

  // Sequence-display steps on code units; kept apart from the digit
  // arithmetic so that each proof stays small.
  lemma FourChars(a: CodeUnit, b: CodeUnit, c: CodeUnit, d: CodeUnit, s: JsString)
    requires |s| >= 4 && a == s[0] && b == s[1] && c == s[2] && d == s[3]
    ensures [a, b, c, d] == s[..4]
  {
  }

  lemma EncodeDecodeThree(s: JsString)
    requires AllDigits(s)
    requires |s| == 3
    ensures Encode(DecodeGroups(s)) == s <==> CanonicalTail(s)
  {
    var v0, v1, v2 := Value(s[0]), Value(s[1]), Value(s[2]);
    var x, y := Byte0(v0, v1), Byte1(v1, v2);
    assert DecodeGroups(s) == [x, y];
    EncodePair(x, y);
    PackUnpack(v0, v1, v2, 0);
    DigitOfValue(s[0]);
    DigitOfValue(s[1]);
    LastDigitMatches(Sextet2(y, 0), s[2]);
    ThreeChars(Digit(Sextet0(x)), Digit(Sextet1(x, y)), Digit(Sextet2(y, 0)), s);
  }

  // As `FourChars`, for a three-digit tail.
  lemma ThreeChars(a: CodeUnit, b: CodeUnit, c: CodeUnit, s: JsString)
    requires |s| == 3 && a == s[0] && b == s[1]
    ensures [a, b, c] == s <==> c == s[2]
  {
    if c == s[2] {
      assert [a, b, c] == [s[0], s[1], s[2]] == s;
    }
  }

  lemma EncodeDecodeTwo(s: JsString)
    requires AllDigits(s)
    requires |s| == 2
    ensures Encode(DecodeGroups(s)) == s <==> CanonicalTail(s)
  {
    var v0, v1 := Value(s[0]), Value(s[1]);
    var x := Byte0(v0, v1);
    assert DecodeGroups(s) == [x];
    EncodeSingle(x);
    PackUnpack(v0, v1, 0, 0);
    DigitOfValue(s[0]);
    LastDigitMatches(Sextet1(x, 0), s[1]);
    TwoChars(Digit(Sextet0(x)), Digit(Sextet1(x, 0)), s);
  }

  // As `FourChars`, for a two-digit tail.
  lemma TwoChars(a: CodeUnit, b: CodeUnit, s: JsString)
    requires |s| == 2 && a == s[0]
    ensures [a, b] == s <==> b == s[1]
  {
    if b == s[1] {
      assert [a, b] == [s[0], s[1]] == s;
    }
  }

  /** The tail digit is re-encoded as itself exactly when its value is
      the re-derived sextet. */
  lemma LastDigitMatches(v: Sextet, c: CodeUnit)
    requires IsDigit(c)
    ensures Digit(v) == c <==> v == Value(c)
  {
    DigitOfValue(c);
    if Digit(v) == c {
      DigitInjective(v, Value(c));
    }
  }

  /** Two inputs that differ only in the unused bits of the tail decode to
      the same byte, and only one of them is an encoding. */
  lemma DecodeIgnoresTailBits()
    ensures Decode([ZeroDigit, ZeroDigit]) == Some([0])
    ensures Decode([ZeroDigit, 'B' as CodeUnit]) == Some([0])
    ensures Encode([0]) == [ZeroDigit, ZeroDigit]
  {
    DecodeSingleByte([ZeroDigit, ZeroDigit]);
    DecodeSingleByte([ZeroDigit, 'B' as CodeUnit]);
    EncodeZeroByte();
  }

  lemma EncodeZeroByte()
    ensures Encode([0]) == [ZeroDigit, ZeroDigit]
  {
    assert Encode([0]) == [Digit(0), Digit(0)];
  }

  // `s` is pinned by an equation rather than passed as a literal, so that
  // the verifier does not unfold `Decode` on a constant argument.
  lemma DecodeSingleByte(s: JsString)
    requires s == [ZeroDigit, ZeroDigit] || s == [ZeroDigit, 'B' as CodeUnit]
    ensures Decode(s) == Some([0])
  {
    assert AllDigits(s);
    assert Decode(s) == Some(DecodeGroups(s));
    assert DecodeGroups(s) == [Byte0(0, Value(s[1]))];
  }

  /** `decodeBase64Url` as written: reject a length of 1 modulo 4, then
      scan every character, then unpack whole groups of four, then the
      tail of two or three characters. */
  method DecodeLoop(data: JsString) returns (r: Option<seq<Byte>>)
    ensures r == Decode(data)
  {
    if |data| % 4 == 1 {
      return None;
    }
    var k := 0;
    while k < |data|
      invariant 0 <= k <= |data|
      invariant forall j :: 0 <= j < k ==> IsDigit(data[j])
    {
      if !IsDigit(data[k]) {
        return None;
      }
      k := k + 1;
    }
    assert AllDigits(data);
    assert Decode(data) == Some(DecodeGroups(data));
    var decoded: seq<Byte> := [];
    var i := 0;
    while i + 4 <= |data|
      invariant 0 <= i <= |data|
      invariant AllDigits(data[i..]) && |data[i..]| % 4 != 1
      invariant decoded + DecodeGroups(data[i..]) == DecodeGroups(data)
    {
      var v0, v1, v2, v3 := Value(data[i]), Value(data[i + 1]), Value(data[i + 2]), Value(data[i + 3]);
      assert data[i..][4..] == data[i + 4..];
      DecodeGroupsStep(data[i..]);
      decoded := decoded + [Byte0(v0, v1), Byte1(v1, v2), Byte2(v2, v3)];
      i := i + 4;
    }
    DecodeTail(data[i..]);
    if |data| - i == 2 {
      var v0, v1 := Value(data[i]), Value(data[i + 1]);
      decoded := decoded + [Byte0(v0, v1)];
    } else if |data| - i == 3 {
      var v0, v1, v2 := Value(data[i]), Value(data[i + 1]), Value(data[i + 2]);
      decoded := decoded + [Byte0(v0, v1), Byte1(v1, v2)];
    }
    assert decoded == DecodeGroups(data);
    return Some(decoded);
  }

  /** `encodeBase64Url` as written: whole groups of three bytes, then the
      tail of one or two bytes. */
  method EncodeLoop(data: seq<Byte>) returns (encoded: JsString)
    ensures encoded == Encode(data)
  {
    encoded := [];
    var i := 0;
    while i + 3 <= |data|
      invariant 0 <= i <= |data|
      invariant encoded + Encode(data[i..]) == Encode(data)
    {
      assert data[i..][3..] == data[i + 3..];
      encoded := encoded
        + [Digit(Sextet0(data[i])), Digit(Sextet1(data[i], data[i + 1])),
           Digit(Sextet2(data[i + 1], data[i + 2])), Digit(Sextet3(data[i + 2]))];
      i := i + 3;
    }
    if |data| - i == 1 {
      encoded := encoded + [Digit(Sextet0(data[i])), Digit(Sextet1(data[i], 0))];
    } else if |data| - i == 2 {
      encoded := encoded
        + [Digit(Sextet0(data[i])), Digit(Sextet1(data[i], data[i + 1])), Digit(Sextet2(data[i + 1], 0))];
    }
  }
}

=== FILE: bytes.dfy ===
/** Integer views of byte buffers: the `DataView` and `BigInt` steps the
    state codec uses to store a signed timestamp in a little-endian
    buffer and read it back. */
module Bytes {

  /** One element of a `Uint8Array`. */
  type Byte = x: int | 0 <= x < 256

  function Pow2(n: nat): (r: int)
    ensures r >= 1
  {
    if n == 0 then 1 else 2 * Pow2(n - 1)
  }

  lemma {:induction false} Pow2Add(a: nat, b: nat)
    ensures Pow2(a + b) == Pow2(a) * Pow2(b)
  {
    if a > 0 {
      Pow2Add(a - 1, b);
      assert Pow2(a + b) == 2 * Pow2(a - 1 + b);
    }
  }

  lemma Pow2Byte()
    ensures Pow2(8) == 256
  {
    assert Pow2(2) == 4;
    assert Pow2(4) == 16;
    assert Pow2(6) == 64;
  }

  /** The concrete values of the 40-bit bounds. */
  lemma Pow2Timestamp()
    ensures Pow2(39) == 0x80_0000_0000
    ensures Pow2(40) == 0x100_0000_0000
  {
    Pow2Byte();
    Pow2Add(8, 8);
    Pow2Add(16, 16);
    Pow2Add(32, 8);
    assert Pow2(40) == 2 * Pow2(39);
  }

  /** Division with remainder has one answer: Dafny's `/` and `%` are the
      floor quotient and the non-negative remainder for a positive divisor. */
  lemma DivModUnique(n: int, d: int, q: int, r: int)
    requires d > 0
    requires n == d * q + r
    requires 0 <= r < d
    ensures n / d == q
    ensures n % d == r
  {
    var k := q - n / d;
    assert d * k == n % d - r by {
      assert n == d * (n / d) + n % d;
    }
  }

  /** The value of a little-endian unsigned integer stored in `bs`, as
      `DataView.getBigUint64(0, true)` reads it when `|bs| == 8`. */
  function LeUint(bs: seq<Byte>): (r: nat)
    ensures r < Pow2(8 * |bs|)
  {
    if |bs| == 0 then 0
    else
      Pow2Byte();
      Pow2Add(8, 8 * (|bs| - 1));
      bs[0] + 256 * LeUint(bs[1..])
  }

  /** Only the all-zero byte string has value zero. */
  lemma {:induction false} LeUintZero(bs: seq<Byte>)
    requires LeUint(bs) == 0
    ensures forall i :: 0 <= i < |bs| ==> bs[i] == 0
  {
    if |bs| > 0 {
      LeUintZero(bs[1..]);
      assert forall i :: 1 <= i < |bs| ==> bs[i] == bs[1..][i - 1];
    }
  }

  /** The `k` low bytes, least significant first, of the two's-complement
      representation of `n`. With `k == 8` this is what
      `DataView.setBigInt64(0, n, true)` writes. */
  function LeBytes(n: int, k: nat): (r: seq<Byte>)
    ensures |r| == k
    decreases k
  {
    if k == 0 then [] else [n % 256] + LeBytes(n / 256, k - 1)
  }

  /** Reading back `k` stored bytes gives the stored value modulo 2^(8k):
      for negative `n` that is its two's-complement bit pattern. */
  lemma {:induction false} LeBytesValue(n: int, k: nat)
    ensures LeUint(LeBytes(n, k)) == n % Pow2(8 * k)
    decreases k
  {
    if k > 0 {
      var q, m := n / 256, Pow2(8 * (k - 1));
      LeBytesValue(q, k - 1);
      Pow2Byte();
      Pow2Add(8, 8 * (k - 1));
      assert Pow2(8 * k) == 256 * m;
      var bs := LeBytes(n, k);
      assert bs[1..] == LeBytes(q, k - 1);
      assert LeUint(bs) == n % 256 + 256 * (q % m);
      ModStep(n, m);
    }
  }

  /** The remainder modulo 256·m splits into the low byte and the
      remainder of the rest modulo m. */
  lemma ModStep(n: int, m: int)
    requires m >= 1
    ensures n % (256 * m) == n % 256 + 256 * ((n / 256) % m)
  {
    var q := n / 256;
    var r := 256 * (q % m) + n % 256;
    assert q == m * (q / m) + q % m;
    assert n == 256 * q + n % 256;
    assert n == (256 * m) * (q / m) + r;
    assert r <= 256 * (m - 1) + 255;
    DivModUnique(n, 256 * m, q / m, r);
  }

  /** Truncating a stored value to its first `j` bytes is the same as
      storing only `j` bytes. */
  lemma {:induction false} LeBytesPrefix(n: int, k: nat, j: nat)
    requires j <= k
    ensures LeBytes(n, k)[..j] == LeBytes(n, j)
    decreases j
  {
    if j > 0 {
      LeBytesPrefix(n / 256, k - 1, j - 1);
      assert LeBytes(n, k)[..j] == [n % 256] + LeBytes(n / 256, k - 1)[..j - 1];
    }
  }

  /** The low `j` bytes contribute their own value; the rest is scaled by 2^(8j). */
  lemma {:induction false} LeUintSplit(bs: seq<Byte>, j: nat)
    requires j <= |bs|
    ensures LeUint(bs) == LeUint(bs[..j]) + Pow2(8 * j) * LeUint(bs[j..])
  {
    if j > 0 {
      var tail := bs[1..];
      LeUintSplit(tail, j - 1);
      var a, b, p := LeUint(tail[..j - 1]), LeUint(tail[j - 1..]), Pow2(8 * (j - 1));
      assert tail[j - 1..] == bs[j..];
      assert bs[..j][1..] == tail[..j - 1];
      assert LeUint(bs[..j]) == bs[0] + 256 * a;
      assert LeUint(bs) == bs[0] + 256 * (a + p * b);
      Pow2Byte();
      Pow2Add(8, 8 * (j - 1));
      ScaleRegroup(bs[0], a, b, p);
    }
  }

  // Regrouping of a product; stated apart so that the nonlinear step is
  // one small obligation.
  lemma ScaleRegroup(x: int, a: int, b: int, p: int)
    ensures x + 256 * (a + p * b) == (x + 256 * a) + (256 * p) * b
  {
  }

  /** `x` fits in `bits`-bit two's complement. */
  predicate InSigned(bits: nat, x: int)
    requires bits >= 1
  {
    -Pow2(bits - 1) <= x <= Pow2(bits - 1) - 1
  }

  /** `BigInt.asIntN(bits, u)`: the signed `bits`-bit integer whose bit
      pattern is the low `bits` bits of `u`. */
  function AsIntN(bits: nat, u: int): (r: int)
    requires bits >= 1
    ensures InSigned(bits, r)
    ensures r % Pow2(bits) == u % Pow2(bits)
  {
    var p := Pow2(bits);
    assert p == 2 * Pow2(bits - 1);
    var m := u % p;
    DivModUnique(m, p, 0, m);
    if m >= Pow2(bits - 1) then
      DivModUnique(m - p, p, -1, m);
      m - p
    else m
  }

  /** Sign extension undoes two's-complement storage for every value that
      fits in `bits` bits. */
  lemma SignExtendInverse(bits: nat, v: int)
    requires bits >= 1
    requires InSigned(bits, v)
    ensures AsIntN(bits, v) == v
  {
    var p := Pow2(bits);
    if v >= 0 {
      DivModUnique(v, p, 0, v);
    } else {
      DivModUnique(v, p, -1, v + p);
    }
  }

  /** A signed `bits`-bit integer is determined by its low `bits` bits. */
  lemma SignedResidueUnique(bits: nat, a: int, b: int)
    requires bits >= 1
    requires InSigned(bits, a) && InSigned(bits, b)
    requires a % Pow2(bits) == b % Pow2(bits)
    ensures a == b
  {
    SignExtendInverse(bits, a);
    SignExtendInverse(bits, b);
  }

  /** Sign-extending the low `8 * j` bits of a little-endian read depends
      only on its first `j` bytes: with `j == 5` and eight bytes this is
      `BigInt.asIntN(40, getBigUint64(0, true))`. */
  lemma LowBytesDecide(bs: seq<Byte>, j: nat)
    requires 1 <= j <= |bs|
    ensures AsIntN(8 * j, LeUint(bs)) == AsIntN(8 * j, LeUint(bs[..j]))
  {
    var u, lo, hi := LeUint(bs), LeUint(bs[..j]), LeUint(bs[j..]);
    assert |bs[..j]| == j;
    LeUintSplit(bs, j);
    SignedLowBits(8 * j, u, lo, hi);
  }

  /** Adding a multiple of 2^bits does not change the signed value of the
      low `bits` bits. */
  lemma SignedLowBits(bits: nat, u: int, lo: int, hi: int)
    requires bits >= 1
    requires 0 <= lo < Pow2(bits)
    requires u == lo + Pow2(bits) * hi
    ensures AsIntN(bits, u) == AsIntN(bits, lo)
  {
    var p := Pow2(bits);
    HighPartVanishes(lo, hi, p);
    var a, b := AsIntN(bits, u), AsIntN(bits, lo);
    assert a % p == b % p;
    SignedResidueUnique(bits, a, b);
  }

  /** A multiple of `p` added above the low part does not change the
      residue modulo `p`. */
  lemma HighPartVanishes(lo: int, hi: int, p: int)
    requires 0 <= lo < p
    ensures (lo + p * hi) % p == lo % p
  {
    DivModUnique(lo + p * hi, p, hi, lo);
    DivModUnique(lo, p, 0, lo);
  }
}

=== FILE: results.dfy ===
/** Failure-carrying return types for the codec.

    The byte codec signals a malformed input by returning JavaScript's
    `undefined`; that becomes `None`. The state codec signals failure by
    throwing; that becomes `Failure` with a label saying which check fired. */
module Results {

  datatype Option<+T> = None | Some(value: T)

  datatype Result<+T, +E> = Success(value: T) | Failure(error: E)
}

=== FILE: statecodec.dfy ===
/** The link-token codec: a state (a moment in time plus a list of
    flag/time-zone entries) is written as one URL-safe string

        'A'  <7 base64url digits: the low 5 bytes of the clamped epoch seconds>
             <entries, each flag + time zone with '/' written '.', joined by '~'>

    and read back by `DecodeState`. */
module StateCodec {
  import opened Results
  import opened Bytes
  import opened Text
  import Base64Url

  /** One row of the shared page: a flag of two code units and an IANA
      zone name. */
  datatype Entry = Entry(flag: JsString, timeZone: JsString)

  /** `ms` is the moment as milliseconds since the Unix epoch. */
  datatype State = State(ms: int, entries: seq<Entry>)

  /** The ways `decodeState` and `encodeState` throw. */
  datatype StateError =
    | UnsupportedVersion   // first character is not the version digit
    | InvalidTimestamp     // the seven timestamp characters are not base64url
    | TruncatedTimestamp   // fewer than eight bytes to read the timestamp from
    | InvalidEntry         // an entry's flag or time zone is malformed

  /** The version digit is the base64url digit for 0, `A`. */
  const Version: CodeUnit := Base64Url.ZeroDigit
  const Separator: CodeUnit := '~' as CodeUnit
  const Slash: CodeUnit := '/' as CodeUnit
  const Dot: CodeUnit := '.' as CodeUnit
  const TimestampBits: nat := 40
  /** `AAAA`, appended to the seven timestamp digits so that they decode
      to eight bytes. */
  const Padding: JsString := Base64Url.ZeroGroup

  /* ----- Clamping the timestamp ----- */

  function Dist(a: int, b: int): nat {
    if a >= b then a - b else b - a
  }

  /** `clampBigIntToBits`: the value of `bits`-bit two's complement range
      nearest to `x`. */
  function Clamp(x: int, bits: nat): (r: int)
    requires bits >= 1
    ensures InSigned(bits, r)
    ensures forall y :: InSigned(bits, y) ==> Dist(x, r) <= Dist(x, y)
  {
    var lower := -Pow2(bits - 1);
    var upper := Pow2(bits - 1) - 1;
    if x < lower then lower
    else if x > upper then upper
    else x
  }

  /** The 40-bit range of the timestamp, written out: whole seconds from
      -0x80_0000_0000 to 0x7F_FFFF_FFFF. */
  lemma TimestampRange(x: int)
    ensures InSigned(TimestampBits, x) <==> -549755813888 <= x <= 549755813887
  {
    Pow2Timestamp();
  }

  /** Clamping leaves representable values alone, so it is idempotent. */
  lemma ClampIdentity(x: int, bits: nat)
    requires bits >= 1
    ensures InSigned(bits, x) <==> Clamp(x, bits) == x
    ensures Clamp(Clamp(x, bits), bits) == Clamp(x, bits)
  {
  }

  /** Clamping never reorders two values. */
  lemma ClampMonotone(x: int, y: int, bits: nat)
    requires bits >= 1
    requires x <= y
    ensures Clamp(x, bits) <= Clamp(y, bits)
  {
  }

  /** `Math.floor(date.getTime() / 1000)`: whole seconds, rounded down. */
  function EpochSeconds(ms: int): (r: int)
    ensures r * 1000 <= ms < r * 1000 + 1000
  {
    ms / 1000
  }

  /** The five bytes written into the token: the low 5 bytes of the
      little-endian 64-bit two's complement form of the clamped seconds. */
  function TimestampField(seconds: int): (r: seq<Byte>)
    ensures |r| == 5
    ensures AsIntN(TimestampBits, LeUint(r)) == Clamp(seconds, TimestampBits)
  {
    var c := Clamp(seconds, TimestampBits);
    LeBytesPrefix(c, 8, 5);
    LeBytesValue(c, 5);
    ClampedResidue(c);
    LeBytes(c, 8)[..5]
  }

  /** Writing the clamped seconds as 40 bits and reading them back as a
      signed number gives the same seconds. */
  lemma ClampedResidue(c: int)
    requires InSigned(TimestampBits, c)
    ensures AsIntN(TimestampBits, c % Pow2(TimestampBits)) == c
  {
    var p := Pow2(TimestampBits);
    var u := c % p;
    var a := AsIntN(TimestampBits, u);
    assert a % p == u % p;
    DivModUnique(u, p, 0, u);
    assert u % p == c % p;
    SignedResidueUnique(TimestampBits, a, c);
  }

  /* ----- Entries ----- */

  /** A character of `/^[A-Za-z0-9/+_-]+$/`. */
  predicate IsTimeZoneChar(c: CodeUnit): (r: bool)
    ensures r ==> c != Dot && c != Separator
  {
    InRange(c, 'A', 'Z') || InRange(c, 'a', 'z') || InRange(c, '0', '9')
    || c == Slash || c == '+' as CodeUnit || c == '_' as CodeUnit || c == '-' as CodeUnit
  }

  /** `/^[A-Za-z0-9/+_-]+$/.test(tz)`. */
  predicate ValidTimeZone(tz: JsString): (r: bool)
    ensures r ==> |tz| >= 1 && Dot !in tz && Separator !in tz
  {
    |tz| > 0 && forall i :: 0 <= i < |tz| ==> IsTimeZoneChar(tz[i])
  }

  /** The test `encodeState` applies before writing an entry. */
  predicate ValidEntry(e: Entry): (r: bool)
    ensures r ==> |e.flag| == 2 && |e.timeZone| >= 1 && Dot !in e.timeZone
  {
    |e.flag| == 2 && ValidTimeZone(e.timeZone)
  }

  predicate AllValid(es: seq<Entry>) {
    forall i :: 0 <= i < |es| ==> ValidEntry(es[i])
  }

  /** `flag + timeZone.replace(/\//g, '.')`. */
  function EncodeEntry(e: Entry): (r: JsString)
    ensures |r| == |e.flag| + |e.timeZone|
    ensures r[..|e.flag|] == e.flag
    ensures Slash !in r[|e.flag|..]
  {
    e.flag + ReplaceAll(e.timeZone, Slash, Dot)
  }

  /** `{flag: piece.slice(0, 2), timeZone: piece.slice(2).replace(/\./g, '/')}`. */
  function DecodeEntry(piece: JsString): (r: Entry)
    ensures |r.flag| == Min(2, |piece|) && r.flag == piece[..|r.flag|]
    ensures |r.flag| + |r.timeZone| == |piece|
    ensures Dot !in r.timeZone
    ensures forall i :: 0 <= i < |r.timeZone| ==>
      r.timeZone[i] == if piece[|r.flag| + i] == Dot then Slash else piece[|r.flag| + i]
  {
    Entry(Slice(piece, 0, 2), ReplaceAll(SliceFrom(piece, 2), Dot, Slash))
  }

  function EncodeEntries(es: seq<Entry>): (r: seq<JsString>)
    ensures |r| == |es|
    ensures forall i :: 0 <= i < |es| ==>
      |r[i]| == |es[i].flag| + |es[i].timeZone| && r[i][..|es[i].flag|] == es[i].flag
  {
    seq(|es|, i requires 0 <= i < |es| => EncodeEntry(es[i]))
  }

  /** `rest ? rest.split('~').map(DecodeEntry) : []`. */
  function DecodeEntries(rest: JsString): (r: seq<Entry>)
    ensures |rest| == 0 <==> |r| == 0
    ensures |rest| > 0 ==> |r| == |Split(rest, Separator)|
    ensures forall i :: 0 <= i < |r| ==> |r[i].flag| <= 2 && Dot !in r[i].timeZone
    ensures |rest| > 0 ==> forall i :: 0 <= i < |r| ==> r[i] == DecodeEntry(Split(rest, Separator)[i])
  {
    if |rest| == 0 then []
    else
      var pieces := Split(rest, Separator);
      seq(|pieces|, i requires 0 <= i < |pieces| => DecodeEntry(pieces[i]))
  }

  /** A valid entry is read back as written, and its encoding is one
      non-empty '~'-free piece. */
  lemma EntryRoundTrip(e: Entry)
    requires ValidEntry(e)
    ensures DecodeEntry(EncodeEntry(e)) == e
    ensures |EncodeEntry(e)| >= 3
    ensures Separator !in e.flag ==> Separator !in EncodeEntry(e)
  {
    var tz := e.timeZone;
    assert Dot !in tz;
    ReplaceAllInverse(tz, Slash, Dot);
    SliceOfConcat(e.flag, ReplaceAll(tz, Slash, Dot));
    if Separator !in e.flag {
      assert Separator !in tz;
      ReplaceAllFree(tz, Slash, Dot, Separator);
    }
  }

  /** The entries part of a token reads back as the entries written,
      provided no flag contains the separator. */
  lemma EntriesRoundTrip(es: seq<Entry>)
    requires AllValid(es)
    requires forall i :: 0 <= i < |es| ==> Separator !in es[i].flag
    ensures DecodeEntries(Join(EncodeEntries(es), Separator)) == es
  {
    var pieces := EncodeEntries(es);
    if |es| == 0 {
      assert Join(pieces, Separator) == [];
    } else {
      forall i | 0 <= i < |es|
        ensures Separator !in pieces[i] && DecodeEntry(pieces[i]) == es[i]
      {
        EntryRoundTrip(es[i]);
      }
      EntryRoundTrip(es[0]);
      SplitJoin(pieces, Separator);
    }
  }

  /* ----- The whole token ----- */

  /** `encodeState`: throws on the first malformed entry; otherwise the
      version digit, the 7-digit timestamp and the '~'-joined entries. */
  function EncodeState(s: State): (r: Result<JsString, StateError>)
    ensures r.Success? <==> AllValid(s.entries)
    ensures r.Failure? ==> r.error == InvalidEntry
    ensures r.Success? ==> |r.value| >= 8 && r.value[0] == Version
    ensures r.Success? ==> Base64Url.AllDigits(r.value[1..8])
    ensures r.Success? && |s.entries| == 0 ==> |r.value| == 8
  {
    if !AllValid(s.entries) then Failure(InvalidEntry)
    else
      var stamp := Base64Url.Encode(TimestampField(EpochSeconds(s.ms)));
      var t := [Version] + stamp + Join(EncodeEntries(s.entries), Separator);
      assert t[1..8] == stamp;
      Success(t)
  }

  /** `decodeState`: checks the version digit, decodes the seven timestamp
      digits padded with "AAAA", reads a little-endian 64-bit word from the
      bytes and keeps its low 40 bits as a signed number of seconds. */
  function DecodeState(t: JsString): (r: Result<State, StateError>)
    ensures |t| == 0 || t[0] != Version ==> r == Failure(UnsupportedVersion)
    ensures r.Success? <==> |t| >= 8 && t[0] == Version && Base64Url.AllDigits(t[1..8])
    ensures |t| >= 8 && t[0] == Version && !Base64Url.AllDigits(t[1..8]) ==> r == Failure(InvalidTimestamp)
    ensures r.Success? ==> r.value.ms % 1000 == 0
    ensures r.Success? ==> -Pow2(TimestampBits - 1) * 1000 <= r.value.ms < Pow2(TimestampBits - 1) * 1000
    ensures r.Success? ==> r.value.entries == DecodeEntries(SliceFrom(t, 8))
  {
    if |t| == 0 || t[0] != Version then Failure(UnsupportedVersion)
    else
      var field := Slice(t, 1, 8) + Padding;
      DecodeStateGate(t);
      match Base64Url.Decode(field)
      case None => Failure(InvalidTimestamp)
      case Some(bytes) =>
        if |bytes| < 8 then Failure(TruncatedTimestamp)
        else
          var seconds := AsIntN(TimestampBits, LeUint(bytes[..8]));
          DivModUnique(seconds * 1000, 1000, seconds, 0);
          Success(State(seconds * 1000, DecodeEntries(SliceFrom(t, 8))))
  }

  /** How the padded timestamp field decodes, by the token's length. */
  lemma DecodeStateGate(t: JsString)
    requires |t| >= 1
    ensures var d := Base64Url.Decode(Slice(t, 1, 8) + Padding);
            (d.Some? && |d.value| >= 8) <==> |t| >= 8 && Base64Url.AllDigits(t[1..8])
    ensures var d := Base64Url.Decode(Slice(t, 1, 8) + Padding);
            |t| >= 8 && !Base64Url.AllDigits(t[1..8]) ==> d.None?
  {
    var field := Slice(t, 1, 8) + Padding;
    var n := |Slice(t, 1, 8)|;
    assert |field| == n + 4;
    if |t| >= 8 {
      assert Slice(t, 1, 8) == t[1..8];
      if !Base64Url.AllDigits(t[1..8]) {
        var i :| 0 <= i < 7 && !Base64Url.IsDigit(t[1..8][i]);
        assert field[i] == t[1..8][i];
      } else {
        PaddedDigits(t[1..8]);
      }
    } else {
      assert n < 7;
      assert (n + 4) * 3 / 4 < 8;
    }
  }

  /** A token shorter than eight characters never decodes: the padded
      field is either not decodable (a bad digit, or a length that leaves
      one dangling character) or decodes to fewer than eight bytes. */
  lemma ShortToken(t: JsString)
    requires 1 <= |t| < 8 && t[0] == Version
    ensures DecodeState(t)
         == Failure(if |t| % 4 == 2 || !Base64Url.AllDigits(t[1..]) then InvalidTimestamp
                    else TruncatedTimestamp)
  {
    var slice := Slice(t, 1, 8);
    assert slice == t[1..];
    var field := slice + Padding;
    assert |field| == |t| + 3;
    if !Base64Url.AllDigits(t[1..]) {
      var i :| 0 <= i < |t| - 1 && !Base64Url.IsDigit(t[1..][i]);
      assert field[i] == t[1..][i];
      assert Base64Url.Decode(field).None?;
    } else if |t| % 4 == 2 {
      assert |field| % 4 == 1;
      assert Base64Url.Decode(field).None?;
    } else {
      PaddedDigits(slice);
      assert |field| * 3 / 4 < 8;
      assert Base64Url.Decode(field).Some?;
    }
  }

  /** Padding with `AAAA` keeps a string of digits a string of digits. */
  lemma PaddedDigits(s: JsString)
    requires Base64Url.AllDigits(s)
    ensures Base64Url.AllDigits(s + Padding)
  {
    var field := s + Padding;
    forall i | 0 <= i < |field| ensures Base64Url.IsDigit(field[i]) {
      if i >= |s| { assert field[i] == Padding[i - |s|]; }
    }
  }

  /* ----- Round trips ----- */

  /** The seven timestamp digits, padded, decode to the five written bytes
      followed by zeros, and the low 40 bits give back the clamped seconds. */
  lemma TimestampRoundTrip(seconds: int)
    ensures |Base64Url.Encode(TimestampField(seconds))| == 7
    ensures Base64Url.Decode(Base64Url.Encode(TimestampField(seconds)) + Padding)
         == Some(TimestampField(seconds) + [0, 0, 0])
    ensures AsIntN(TimestampBits, LeUint(TimestampField(seconds) + [0, 0, 0]))
         == Clamp(seconds, TimestampBits)
  {
    var b := TimestampField(seconds);
    PaddedStampDecodes(b);
    var w := b + [0, 0, 0];
    assert w[..5] == b;
    LowBytesDecide(w, 5);
  }

  /** The seven timestamp digits padded with `AAAA` decode to the five
      written bytes followed by three zero bytes. */
  lemma PaddedStampDecodes(b: seq<Byte>)
    requires |b| == 5
    ensures Base64Url.Decode(Base64Url.Encode(b) + Padding) == Some(b + [0, 0, 0])
  {
    Base64Url.EncodeZeroPadding(b);
    Base64Url.RoundTrip(b + [0, 0, 0]);
  }

  /** Decoding an encoded state gives back its entries and its moment
      rounded down to a whole second and clamped to 40-bit seconds. */
  lemma StateRoundTrip(s: State)
    requires AllValid(s.entries)
    requires forall i :: 0 <= i < |s.entries| ==> Separator !in s.entries[i].flag
    ensures EncodeState(s).Success?
    ensures DecodeState(EncodeState(s).value)
         == Success(State(Clamp(EpochSeconds(s.ms), TimestampBits) * 1000, s.entries))
  {
    var sec := EpochSeconds(s.ms);
    var b := TimestampField(sec);
    var stamp := Base64Url.Encode(b);
    var rest := Join(EncodeEntries(s.entries), Separator);
    var t := [Version] + stamp + rest;
    assert EncodeState(s) == Success(t);
    TokenDecodes(sec, rest);
    EntriesRoundTrip(s.entries);
  }

  /** A token made of the version digit, the timestamp digits for `sec`
      and any rest decodes to the clamped seconds and the rest's entries. */
  lemma TokenDecodes(sec: int, rest: JsString)
    ensures DecodeState([Version] + Base64Url.Encode(TimestampField(sec)) + rest)
         == Success(State(Clamp(sec, TimestampBits) * 1000, DecodeEntries(rest)))
  {
    var b := TimestampField(sec);
    var t := [Version] + Base64Url.Encode(b) + rest;
    TimestampRoundTrip(sec);
    TokenParts(Base64Url.Encode(b), rest);
    var w := b + [0, 0, 0];
    assert w[..8] == w;
    DecodeStateValue(t, w);
  }

  /** The three parts of a token written by `EncodeState`. */
  lemma TokenParts(stamp: JsString, rest: JsString)
    requires |stamp| == 7
    ensures ([Version] + stamp + rest)[0] == Version
    ensures Slice([Version] + stamp + rest, 1, 8) == stamp
    ensures SliceFrom([Version] + stamp + rest, 8) == rest
  {
    var t := [Version] + stamp + rest;
    assert t[1..8] == stamp;
    assert t[8..] == rest;
  }

  /** What `DecodeState` returns once the timestamp field has decoded. */
  lemma DecodeStateValue(t: JsString, bytes: seq<Byte>)
    requires |t| >= 1 && t[0] == Version
    requires Base64Url.Decode(Slice(t, 1, 8) + Padding) == Some(bytes)
    requires |bytes| >= 8
    ensures DecodeState(t)
         == Success(State(AsIntN(TimestampBits, LeUint(bytes[..8])) * 1000, DecodeEntries(SliceFrom(t, 8))))
  {
  }

  /** A moment within the clamp range and on a whole second survives the
      round trip exactly. */
  lemma ExactRoundTrip(s: State)
    requires AllValid(s.entries)
    requires forall i :: 0 <= i < |s.entries| ==> Separator !in s.entries[i].flag
    requires s.ms % 1000 == 0
    requires -Pow2(TimestampBits - 1) * 1000 <= s.ms < Pow2(TimestampBits - 1) * 1000
    ensures EncodeState(s).Success?
    ensures DecodeState(EncodeState(s).value) == Success(s)
  {
    StateRoundTrip(s);
    var sec := EpochSeconds(s.ms);
    assert sec * 1000 == s.ms;
    UnscaleBounds(sec, Pow2(TimestampBits - 1));
    assert Clamp(sec, TimestampBits) == sec;
  }

  // Divides the bounds by 1000; kept apart because the nonlinear step is
  // costly inside `ExactRoundTrip`.
  lemma UnscaleBounds(x: int, p: int)
    requires -p * 1000 <= x * 1000 < p * 1000
    ensures -p <= x < p
  {
  }

  /** Flag lengths count UTF-16 code units, as `flag.length` does: a flag
      that is one character outside the Basic Multilingual Plane (a
      surrogate pair) is accepted and read back, while one of two such
      characters is four units long and rejected. */
  lemma SurrogateFlags(ms: int, hi: CodeUnit, lo: CodeUnit, tz: JsString)
    requires 0xD800 <= hi < 0xDC00 && 0xDC00 <= lo < 0xE000
    requires ValidTimeZone(tz)
    ensures var s := State(ms, [Entry([hi, lo], tz)]);
      EncodeState(s).Success?
      && DecodeState(EncodeState(s).value)
         == Success(State(Clamp(EpochSeconds(ms), TimestampBits) * 1000, s.entries))
    ensures EncodeState(State(ms, [Entry([hi, lo, hi, lo], tz)])) == Failure(InvalidEntry)
  {
    var e := Entry([hi, lo], tz);
    assert ValidEntry(e);
    assert Separator !in e.flag;
    StateRoundTrip(State(ms, [e]));
    assert !ValidEntry(Entry([hi, lo, hi, lo], tz));
  }

  /** Writing never checks flags for `~`, so a flag holding it is written
      but read back as two entries: `X~` with zone `tz` comes back as one
      entry read from `X` alone and one read from the written zone. */
  lemma SeparatorInFlag(ms: int, x: CodeUnit, tz: JsString)
    requires x != Separator
    requires ValidTimeZone(tz)
    ensures var s := State(ms, [Entry([x, Separator], tz)]);
      EncodeState(s).Success?
      && DecodeState(EncodeState(s).value).Success?
      && DecodeState(EncodeState(s).value).value.entries
         == [DecodeEntry([x]), DecodeEntry(ReplaceAll(tz, Slash, Dot))]
  {
    var s := State(ms, [Entry([x, Separator], tz)]);
    var sec := EpochSeconds(ms);
    var rest := Join(EncodeEntries(s.entries), Separator);
    assert EncodeState(s) == Success([Version] + Base64Url.Encode(TimestampField(sec)) + rest);
    TokenDecodes(sec, rest);
    SeparatorInFlagPieces(x, tz);
  }

  // The entries half of `SeparatorInFlag`.
  lemma SeparatorInFlagPieces(x: CodeUnit, tz: JsString)
    requires x != Separator
    requires ValidTimeZone(tz)
    ensures DecodeEntries(Join(EncodeEntries([Entry([x, Separator], tz)]), Separator))
         == [DecodeEntry([x]), DecodeEntry(ReplaceAll(tz, Slash, Dot))]
  {
    var e := Entry([x, Separator], tz);
    var tail := ReplaceAll(tz, Slash, Dot);
    var rest := Join(EncodeEntries([e]), Separator);
    assert rest == EncodeEntry(e);
    assert Separator !in tail by {
      ReplaceAllFree(tz, Slash, Dot, Separator);
    }
    TwoPieces(x, tail, rest);
  }

  // Splitting `x~tail` into its two pieces, kept apart from the entry
  // encoding above.
  lemma TwoPieces(x: CodeUnit, tail: JsString, rest: JsString)
    requires x != Separator && Separator !in tail
    requires rest == [x, Separator] + tail
    ensures Split(rest, Separator) == [[x], tail]
  {
    assert rest == [x] + [Separator] + tail;
    SplitCons([x], Separator, tail);
    SplitFree(tail, Separator);
  }

  /** Every code unit is the zero digit `A`. */
  predicate ZeroDigits(s: JsString) {
    forall i :: 0 <= i < |s| ==> s[i] == Base64Url.ZeroDigit
  }

  /** A moment in the first second after the epoch with no entries is the
      eight-character token `AAAAAAAA`, which reads back as the epoch. */
  lemma EmptyToken(ms: int, t: JsString)
    requires 0 <= ms < 1000
    requires |t| == 8 && ZeroDigits(t)
    ensures EncodeState(State(ms, [])) == Success(t)
    ensures DecodeState(t) == Success(State(0, []))
  {
    var sec := EpochSeconds(ms);
    assert sec == 0;
    EmptyTokenEncodes(ms, sec, t);
    EmptyTokenDecodes(ms, sec, t);
  }

  // The reading half of `EmptyToken`.
  lemma EmptyTokenDecodes(ms: int, sec: int, t: JsString)
    requires sec == EpochSeconds(ms) == 0
    requires EncodeState(State(ms, [])) == Success(t)
    ensures DecodeState(t) == Success(State(0, []))
  {
    StateRoundTrip(State(ms, []));
    ClampIdentity(sec, TimestampBits);
  }

  // The writing half of `EmptyToken`.
  lemma EmptyTokenEncodes(ms: int, sec: int, t: JsString)
    requires sec == EpochSeconds(ms) == 0
    requires |t| == 8 && ZeroDigits(t)
    ensures EncodeState(State(ms, [])) == Success(t)
  {
    var stamp := Base64Url.Encode(TimestampField(sec));
    var rest := Join(EncodeEntries([]), Separator);
    var u := [Version] + stamp + rest;
    assert EncodeState(State(ms, [])) == Success(u);
    ZeroStamp(sec);
    assert EncodeEntries([]) == [];
    assert |rest| == 0;
    assert ZeroDigits(u) by {
      assert forall i :: 1 <= i < |u| ==> u[i] == stamp[i - 1];
    }
    ZeroDigitsUnique(u, t);
  }

  /** Two equally long strings of zero digits are equal; this lets the
      proofs above avoid sequence displays of literal digits. */
  lemma ZeroDigitsUnique(a: JsString, b: JsString)
    requires |a| == |b| && ZeroDigits(a) && ZeroDigits(b)
    ensures a == b
  {
  }

  /** Second zero is written as seven zero digits. */
  lemma ZeroStamp(sec: int)
    requires sec == 0
    ensures var r := Base64Url.Encode(TimestampField(sec)); |r| == 7 && ZeroDigits(r)
  {
    ClampIdentity(sec, TimestampBits);
    var b := TimestampField(sec);
    ZeroField(LeUint(b));
    LeUintZero(b);
    ZeroFieldDigits(b);
  }

  /** The only 40-bit pattern whose signed value is zero is all zeros. */
  lemma ZeroField(u: int)
    requires 0 <= u < Pow2(TimestampBits)
    requires AsIntN(TimestampBits, u) == 0
    ensures u == 0
  {
    DivModUnique(u, Pow2(TimestampBits), 0, u);
  }

  /** Five zero bytes are written as seven zero digits. */
  lemma ZeroFieldDigits(b: seq<Byte>)
    requires |b| == 5
    requires forall i :: 0 <= i < 5 ==> b[i] == 0
    ensures var r := Base64Url.Encode(b); |r| == 7 && ZeroDigits(r)
  {
    assert b == [0, 0, 0, 0, 0];
    Base64Url.EncodeFive(0, 0, 0, 0, 0);
  }
}

=== FILE: text.dfy ===
/** JavaScript strings and the string operations the token layout relies
    on: `String.prototype.slice` with non-negative bounds,
    `String.prototype.replace` with a global one-character pattern,
    `String.prototype.split` with a one-character separator, and
    `Array.prototype.join`. */
module Text {

  /** One UTF-16 code unit. JavaScript string lengths, indices and `slice`
      bounds count these: a character outside the Basic Multilingual Plane
      is two units (a surrogate pair), and a lone surrogate is a unit like
      any other. */
  type CodeUnit = x: int | 0 <= x < 0x1_0000

  /** A JavaScript string: its sequence of UTF-16 code units. */
  type JsString = seq<CodeUnit>

  /** `lo <= c <= hi` for a regular-expression range such as `A-Z`. */
  predicate InRange(c: CodeUnit, lo: char, hi: char) {
    lo as int <= c <= hi as int
  }

  function Min(a: int, b: int): int {
    if a <= b then a else b
  }

  /** `s.slice(from, to)`: both bounds are cut down to the length, and a
      start at or past the end gives the empty string. */
  function Slice(s: JsString, from: nat, to: nat): (r: JsString)
    ensures |r| == (if Min(to, |s|) <= from then 0 else Min(to, |s|) - from)
    ensures forall i :: 0 <= i < |r| ==> r[i] == s[from + i]
  {
    var hi := Min(to, |s|);
    if hi <= from then [] else s[from..hi]
  }

  /** `s.slice(from)`. */
  function SliceFrom(s: JsString, from: nat): JsString {
    Slice(s, from, |s|)
  }

  lemma SliceOfConcat(a: JsString, b: JsString)
    ensures Slice(a + b, 0, |a|) == a
    ensures SliceFrom(a + b, |a|) == b
  {
    assert (a + b)[..|a|] == a;
    assert (a + b)[|a|..] == b;
  }

  /** Every occurrence of `from` replaced by `to`, as `s.replace(/x/g, y)`
      does for a one-character pattern. */
  function ReplaceAll(s: JsString, from: CodeUnit, to: CodeUnit): (r: JsString)
    ensures |r| == |s|
    ensures forall i :: 0 <= i < |s| ==> r[i] == (if s[i] == from then to else s[i])
  {
    if |s| == 0 then []
    else [if s[0] == from then to else s[0]] + ReplaceAll(s[1..], from, to)
  }

  /** Replacing `from` by a character the text does not contain can be
      undone by replacing that character back. */
  lemma ReplaceAllInverse(s: JsString, from: CodeUnit, to: CodeUnit)
    requires to !in s
    ensures ReplaceAll(ReplaceAll(s, from, to), to, from) == s
  {
  }

  lemma ReplaceAllFree(s: JsString, from: CodeUnit, to: CodeUnit, c: CodeUnit)
    requires c != to && c !in s
    ensures c !in ReplaceAll(s, from, to)
  {
  }

  /** `xs.join(sep)`: the pieces in order, a separator between each two. */
  function Join(xs: seq<JsString>, sep: CodeUnit): (r: JsString)
    ensures |xs| == 0 ==> r == []
    ensures |xs| >= 1 ==> |xs[0]| <= |r| && r[..|xs[0]|] == xs[0]
    ensures |xs| >= 2 ==> |xs[0]| < |r| && r[|xs[0]|] == sep
  {
    if |xs| == 0 then []
    else if |xs| == 1 then xs[0]
    else xs[0] + [sep] + Join(xs[1..], sep)
  }

  /** `s.split(sep)`: the maximal separator-free pieces, in order. The
      empty string splits into one empty piece. */
  function Split(s: JsString, sep: CodeUnit): (r: seq<JsString>)
    ensures |r| >= 1
    ensures forall i :: 0 <= i < |r| ==> sep !in r[i]
  {
    if |s| == 0 then [[]]
    else if s[0] == sep then [[]] + Split(s[1..], sep)
    else
      var rest := Split(s[1..], sep);
      [[s[0]] + rest[0]] + rest[1..]
  }

  /** Joining the pieces of a split gives back the text. */
  lemma {:induction false} JoinSplit(s: JsString, sep: CodeUnit)
    ensures Join(Split(s, sep), sep) == s
  {
    if |s| > 0 {
      var rest := Split(s[1..], sep);
      JoinSplit(s[1..], sep);
      if s[0] == sep {
        assert Split(s, sep)[1..] == rest;
      } else {
        JoinExtendFirst(s[0], rest, sep);
        assert s == [s[0]] + s[1..];
      }
    }
  }

  /** Putting one more unit in front of the first piece puts it in front
      of the join. */
  lemma JoinExtendFirst(c: CodeUnit, xs: seq<JsString>, sep: CodeUnit)
    requires |xs| >= 1
    ensures Join([[c] + xs[0]] + xs[1..], sep) == [c] + Join(xs, sep)
  {
    var r := [[c] + xs[0]] + xs[1..];
    assert r[1..] == xs[1..];
    if |xs| > 1 {
      assert Join(r, sep) == [c] + (xs[0] + [sep] + Join(xs[1..], sep));
    }
  }

  /** A text without the separator is one piece. */
  lemma {:induction false} SplitFree(s: JsString, sep: CodeUnit)
    requires sep !in s
    ensures Split(s, sep) == [s]
  {
    if |s| > 0 {
      SplitFree(s[1..], sep);
      assert s == [s[0]] + s[1..];
    }
  }

  /** A leading separator-free piece followed by the separator splits off. */
  lemma {:induction false} SplitCons(a: JsString, sep: CodeUnit, rest: JsString)
    requires sep !in a
    ensures Split(a + [sep] + rest, sep) == [a] + Split(rest, sep)
  {
    if |a| == 0 {
      assert a + [sep] + rest == [sep] + rest;
      assert ([sep] + rest)[1..] == rest;
    } else {
      var s := a + [sep] + rest;
      assert s[1..] == a[1..] + [sep] + rest;
      SplitCons(a[1..], sep, rest);
      assert [a[0]] + a[1..] == a;
    }
  }

  /** Splitting a join gives back the pieces, provided there is at least
      one and none of them contains the separator. */
  lemma {:induction false} SplitJoin(xs: seq<JsString>, sep: CodeUnit)
    requires |xs| >= 1
    requires forall i :: 0 <= i < |xs| ==> sep !in xs[i]
    ensures Split(Join(xs, sep), sep) == xs
  {
    if |xs| == 1 {
      SplitFree(xs[0], sep);
    } else {
      SplitJoin(xs[1..], sep);
      SplitCons(xs[0], sep, Join(xs[1..], sep));
      assert xs == [xs[0]] + xs[1..];
    }
  }

  /** The separator occurs in a join of separator-free pieces exactly when
      there are at least two pieces. */
  lemma {:induction false} JoinHasSeparator(xs: seq<JsString>, sep: CodeUnit)
    requires forall i :: 0 <= i < |xs| ==> sep !in xs[i]
    ensures sep in Join(xs, sep) <==> |xs| >= 2
  {
    if |xs| >= 2 {
      var j := Join(xs, sep);
      assert j[|xs[0]|] == sep;
    }
  }
}
